=== FILE: README.md ===
# Fallacy detector core, modelled in Dafny

The fallacy detector searches the web for a news article on a topic, loads and
cleans its text, and runs it through three language-model chains: fallacy
detection, educational explanation and synthesis. This project models the part of
it that has logic of its own:

- `clean_article_text`: collapses whitespace the way `' '.join(text.split())` does, then
  bounds the text to a character limit. It cuts at a late full stop when it can, and
  otherwise cuts hard and appends `...` (module `Utils`; Python's string built-ins
  are in module `PyStr`).
- `format_analysis_result`: renders an error record as one `Error:` line. Any other
  record becomes a fixed six-field report with placeholders (module `Utils`).
- `AnalysisConfig`: its defaults, and `__post_init__`, which fills empty API keys
  from the environment and refuses to build without both keys (module `Config`).
- `FallacyAnalyzer.load_article` and `analyze_article`: query building, choosing the
  first search result, error mapping, stage order, and the short-circuit on the
  first fault (module `Analyzer`).

Modelling choices:

- The search endpoint, the page loader and the three model chains are
  collaborator functions returning `Result<…, string>`. A `Failure` is the message
  of the exception that call raised.
- Every call the pipeline makes is recorded in a trace. The contracts use the
  trace to say which calls happen, in which order and with which arguments.
- Result records are `map<string, string>`.
- The environment is a `map<string, string>` parameter: the process environment after `load_dotenv()` (fallacy_detector/config.py:10) has merged `.env` into it.
- The timestamp that `datetime.now()` would print is a string parameter.
- The fallacy table (`fallacies_df.to_string()`) is an opaque string field of the
  analyzer.
- Python raises `KeyError` when the first search result has no `link` or `title`,
  and `IndexError` when the loader returns no page. Both are modelled, with Python's
  `str(e)` text in the error message.
- Whitespace is Python's `str.isspace` set. `split()` and `strip()` both use it.

Notes on the code as written:

- There are three model stages: detect → explain → synthesize. Synthesis
  receives the cleaned article text as its "summary".
- A success record has exactly five keys: `title`, `url`, `detected_fallacies`,
  `educational_explanations` and `synthesized_result`. It has no `timestamp` key, so a
  rendered report always shows the supplied timestamp.
- The sentence-cut threshold is strict: the period must lie beyond 80% of the
  limit.
- Missing keys raise Python's `ValueError` from `__post_init__`.

## Model

| member | source | states |
|---|---|---|
| PyStr.IsSpace | fallacy_detector/utils.py:39 | Python's `str.isspace`, used by `split()` and `strip()`; it has no contract of its own, and `PyStr.AsciiIsSpace` checks its ASCII part |
| PyStr.AsciiIsSpace | fallacy_detector/utils.py:39 | below U+0080 a character is whitespace exactly when it is one of space, tab, LF, VT, FF, CR or U+001C..U+001F |
| PyStr.Split | fallacy_detector/utils.py:39 | `text.split()` yields only non-empty words free of whitespace |
| PyStr.SplitIsScan | fallacy_detector/utils.py:39 | `text.split()` equals a left-to-right character scan that cuts at every whitespace character and keeps the non-empty pieces, so each word is a whole maximal whitespace-free run and none is cut, glued or dropped |
| PyStr.CollapseIsSqueeze | fallacy_detector/utils.py:39 | `' '.join(text.split())` equals a left-to-right character scan that drops leading and trailing whitespace, turns each inner whitespace run into one `' '` and keeps every other character in place |
| PyStr.SplitJoin | fallacy_detector/utils.py:39 | splitting `' '.join(words)` gives back exactly those words |
| PyStr.Collapse | fallacy_detector/utils.py:39 | `' '.join(text.split())` has no leading or trailing whitespace, no two adjacent whitespace characters, and no whitespace but `' '`; and it splits into the same words as the input |
| PyStr.CollapseKeepsNonSpace | fallacy_detector/utils.py:39 | collapsing keeps every non-whitespace character, in its original order, and adds none |
| PyStr.CollapseFixedIff | fallacy_detector/utils.py:39 | a string is left unchanged by collapsing if and only if it is already collapsed |
| PyStr.CollapseUnique | fallacy_detector/utils.py:39 | the collapsed text is the only collapsed string with the input's words |
| PyStr.CollapseIdempotent | fallacy_detector/utils.py:39 | collapsing twice equals collapsing once |
| PyStr.PyHead | fallacy_detector/utils.py:43 | `s[:n]` is a prefix of `s` of length `n` (whole `s` past the end, `len(s)+n` clamped at 0 for negative `n`) |
| PyStr.RFind | fallacy_detector/utils.py:44 | `rfind('.')` is -1 or an index holding '.', with no '.' after it |
| PyStr.Strip | fallacy_detector/analyzer.py:150 | `strip()` returns the infix left after removing only whitespace from both ends, and it does not start or end with whitespace |
| Utils.CleanArticleText | fallacy_detector/utils.py:33-50 | empty text gives ""; text within the limit after collapsing is returned collapsed; for any limit the result is a prefix of the collapsed text or `collapsed[:limit]` plus "..."; for a non-negative limit over the limit, the result is at most limit+3 long and is a prefix of the collapsed text or its first `limit` characters plus "..." |
| Utils.CleanSentenceCut | fallacy_detector/utils.py:41-46 | for a non-negative limit, over the limit, with the last '.' of the first `limit` characters at p and 5p > 4·limit, the result is the collapsed text up to and including p; it ends with '.' and is at most `limit` long |
| Utils.CleanEllipsisCut | fallacy_detector/utils.py:41-48 | for a non-negative limit, over the limit, with no '.' beyond 80% of the limit, the result is the first `limit` collapsed characters plus "...", exactly limit+3 long |
| Utils.CleanCutIff | fallacy_detector/utils.py:41-48 | for a non-negative limit, over the limit, the result has length limit+3 if and only if no '.' lies beyond 80% of the limit; otherwise it is at most `limit` long |
| Utils.CleanIsCollapsed | fallacy_detector/utils.py:38-50 | for every limit, negative ones included, the result is whitespace-normal: single inner spaces only, none at either end |
| Utils.CleanIdempotent | fallacy_detector/utils.py:33-50 | for a non-negative limit, cleaning an already cleaned text returns it unchanged |
| Utils.FormatAnalysisResult | fallacy_detector/utils.py:52-76 | the output starts with "Error: " if and only if the record has an `error` key |
| Utils.FormatErrorIgnoresOtherKeys | fallacy_detector/utils.py:54-55 | an error record renders as exactly "Error: " + message; other keys and the timestamp do not matter |
| Utils.ReportFieldsDefaults | fallacy_detector/utils.py:61-75 | each report field shows its key's value when present; otherwise it shows 'Unknown', 'Unknown', the current timestamp, 'No analysis available', 'No explanations available' or 'No synthesis available' |
| Utils.FormatShowsFieldsInOrder | fallacy_detector/utils.py:57-76 | a non-error report shows each of the six fields right after its own heading, in the order title, url, timestamp, fallacies, explanations, synthesis; heading i+1 follows field i with nothing between, and the report ends with the last field and one newline |
| Utils.FormatIgnoresUnreportedKeys | fallacy_detector/utils.py:57-76 | keys other than the six report keys do not change a non-error report |
| Config.Getenv | fallacy_detector/config.py:32-35 | `os.getenv(name, "")`; it has no contract of its own, and `Config.ResolveKey`, `Config.EmptyOpenAIKeyFromEnvironment` and `Config.EmptySerperKeyFromEnvironment` state how it is used |
| Config.ResolveKey | fallacy_detector/config.py:31-35 | a non-empty key is kept; an empty key becomes the environment value, or "" when the variable is absent |
| Config.PostInit | fallacy_detector/config.py:28-42 | a successful construction has both keys non-empty and leaves model name, token cap and char limit untouched; a failure carries one of the two ValueError messages |
| Config.NewAnalysisConfig | fallacy_detector/config.py:12-42 | constructing with explicit fields keeps those fields and, on success, guarantees both keys non-empty |
| Config.PostInitSucceedsIff | fallacy_detector/config.py:31-42 | construction succeeds if and only if both resolved keys are non-empty, and then it holds the resolved keys |
| Config.GivenKeysWin | fallacy_detector/config.py:31-35 | with both keys passed in non-empty, the result is the input configuration under any environment |
| Config.EmptyOpenAIKeyFromEnvironment | fallacy_detector/config.py:31-39 | an empty OpenAI key is taken from OPENAI_API_KEY; when that is absent or empty, construction fails with the OpenAI message |
| Config.EmptySerperKeyFromEnvironment | fallacy_detector/config.py:34-42 | an empty Serper key is taken from SERPER_API_KEY; when that is absent or empty and the OpenAI key resolves, construction fails with the Serper message |
| Config.OpenAIKeyCheckedFirst | fallacy_detector/config.py:38-42 | when the OpenAI key does not resolve, the error is the OpenAI one, whatever the Serper key |
| Config.PostInitIdempotent | fallacy_detector/config.py:28-42 | re-running the key resolution on a built configuration changes nothing, under any environment |
| Config.DefaultConfiguration | fallacy_detector/config.py:17-42 | `AnalysisConfig()` with both variables set yields model "gpt-4.1-nano", max_tokens 16000, char limit 5000 and the two environment keys |
| Analyzer.BuildQuery | fallacy_detector/analyzer.py:86 | the query is "site:" + domain + " " + topic for a non-empty domain, the topic verbatim otherwise |
| Analyzer.LoadArticle | fallacy_detector/analyzer.py:83-130 | the record has exactly the key `error` or exactly url/title/content; the first call is one search with the query, the Serper key and num 5; at most one fetch follows, and on success it fetched the returned url; every call but the last succeeded, and all did on success; for a non-negative configured limit the content is at most limit+3 long |
| Analyzer.LoadArticleNoResults | fallacy_detector/analyzer.py:104-105 | a missing or empty `organic` list gives the "No articles found" error, and nothing is fetched |
| Analyzer.LoadArticleFirstResult | fallacy_detector/analyzer.py:108-126 | the first result's link is fetched; the record holds that link, its title and the cleaned first page with the configured limit |
| Analyzer.LoadArticleSearchFault | fallacy_detector/analyzer.py:90-130 | a search fault gives "Article loading failed: " + message, and nothing is fetched |
| Analyzer.KeyErrorMessage | fallacy_detector/analyzer.py:109-110 | `str(e)` of a `KeyError` is the key in single quotes; it has no contract of its own, and `Analyzer.LoadArticleMissingKey` states the messages it produces |
| Analyzer.LoadArticleMissingKey | fallacy_detector/analyzer.py:108-130 | a first result without `link` or `title` gives "Article loading failed: " + the KeyError text, and nothing is fetched |
| Analyzer.LoadArticleFetchFault | fallacy_detector/analyzer.py:113-130 | a fetch fault, or a load with no page, gives "Article loading failed: " + message after the single fetch |
| Analyzer.LoadFirstResult | fallacy_detector/analyzer.py:108-130 | after a successful search, a missing `link` or `title` stops before any fetch: the link is fetched only when both keys are present; a success record carries the fetched url, and for a non-negative configured limit its content is within limit+3 |
| Analyzer.LoadArticleNoModelCalls | fallacy_detector/analyzer.py:83-130 | loading an article makes no model call |
| Analyzer.RunStages | fallacy_detector/analyzer.py:141-176 | a loaded article yields the `error` key alone, prefixed "Analysis failed: ", or exactly the five success keys; one to three stage calls, all three on success |
| Analyzer.RunStagesSuccess | fallacy_detector/analyzer.py:141-172 | when every stage answers, detect, explain (on the stripped detection) and synthesize run in that order, and the record holds the article's title and url and the three outputs |
| Analyzer.RunStagesFault | fallacy_detector/analyzer.py:141-176 | the first stage that raises gives "Analysis failed: " + its message, and no later stage is called |
| Analyzer.RunStagesShortCircuit | fallacy_detector/analyzer.py:141-176 | the stages make only model calls; each call but the last answered; the run is an error exactly when the last call raised |
| Analyzer.AnalyzeArticle | fallacy_detector/analyzer.py:132-176 | the record has exactly the key `error` or exactly the five success keys |
| Analyzer.AnalyzeArticleLoadError | fallacy_detector/analyzer.py:136-138 | a failed load is returned unchanged, with zero model calls |
| Analyzer.AnalyzeArticleSuccess | fallacy_detector/analyzer.py:141-172 | on success the calls run in order: detect on (content, table), explain on the stripped detection, synthesize on (content, explanation); the record holds the raw detection output |
| Analyzer.AnalyzeArticleStageFault | fallacy_detector/analyzer.py:141-176 | a fault in detection, explanation or synthesis gives "Analysis failed: " + message, and the trace ends with that stage's call |
| Analyzer.AnalyzeArticleShortCircuit | fallacy_detector/analyzer.py:132-176 | every call but the last succeeded; an error run that ends in a model call ended because that call failed; there are at most three model calls, and exactly three on success |
| Analyzer.AnalyzeArticleErrorMessages | fallacy_detector/analyzer.py:104-176 | every error message is the "No articles found" text or starts with "Article loading failed: " or "Analysis failed: " |
| Analyzer.SuccessRecordFields | fallacy_detector/utils.py:61-75 | a record with exactly the five success keys shows its own values in the report, with the supplied timestamp in the timestamp field |
| Analyzer.AnalyzeArticleReport | fallacy_detector/analyzer.py:164-172 | an analysed error renders as its message alone; a success renders its own title, url and three stage outputs with the supplied timestamp and no placeholder |

## Left out

- The Serper HTTP request, the `WebBaseLoader` page fetch and the `ChatOpenAI` / `LLMChain` clients: these are external I/O. They are collaborator functions here, and a decoding failure of the search response counts as a search fault.
- `FallacyAnalyzer.__init__` and `_setup_chains`: these build the OpenAI client and the chains. The prompt templates are static text, and the three chains are the collaborator functions.
- `load_fallacies_data` and `get_fallacies_info`: these are pandas file reads and copies. The rendered table is an opaque string.
- `setup_logging`, the logger calls and the `USER_AGENT` environment write: these are side effects only.
- The debug `print` of the detection output (fallacy_detector/analyzer.py:147): console output is not modelled. It can raise, for instance `UnicodeEncodeError` on a non-UTF-8 stdout. Inside the `try` that would become an "Analysis failed: " record before the explanation stage runs; the model has no such path.
- The `temperature` field: it is a float that only reaches the model client.
- `datetime.now()`: it is nondeterministic, so the formatter takes the timestamp as a parameter.
- The command line in `__main__.py`, `example.py` and the unit tests: these are plumbing. The tests and examples also expect keys and collaborators the analyzer no longer has.
- Python's `str()` of non-string record values: record values are strings here.
- A search response whose `organic` value is truthy but not a list, or whose entries are not string maps: this is outside the modelled `SearchResponse` shape.
- PyStr.Split: its own contract says only that the words are non-empty and free of whitespace. That each word is a whole maximal run of the input is stated by `PyStr.SplitIsScan`, which compares it with a character scan.
- Utils.CleanArticleText: the test `last_period > char_limit * 0.8` is stated as `5 * last_period > 4 * char_limit`. This is exact over the integers and does not model float rounding of `char_limit * 0.8` for very large limits. The limit is not checked anywhere, so negative limits are modelled as the code treats them: with limit -2 or below and no '.', `-1 > char_limit * 0.8` holds and the result is ""; with limit -1, "abc" becomes "ab...". The length bounds are stated for non-negative limits only.
- Utils.CleanIdempotent: it is stated for non-negative limits only. For a negative limit cleaning is not idempotent: with limit -1, "abc" cleans to "ab...", and "ab..." cleans to "ab..".

=== FILE: analyzer.dfy ===
/**
 `FallacyAnalyzer.load_article` and `analyze_article` of
 `fallacy_detector/analyzer.py`: search for an article, fetch and clean it, then run
 the detection, explanation and synthesis chains in that order, turning every fault
 into an `{'error': ...}` record and stopping at the first one.

 The Serper search, the page loader and the three language-model chains are
 collaborators passed in as functions; each call the pipeline makes is recorded in
 a trace so the contracts can say which calls happen, in which order, with which
 arguments.
 */
module Analyzer {
  import opened Wrappers
  import opened PyStr
  import opened Utils
  import opened Config

  /** The JSON body posted to the search endpoint, with the `X-API-KEY` header. */
  datatype SearchRequest = SearchRequest(query: string, apiKey: string, num: int)

  /** The decoded search answer: the `organic` list of result entries, `None` when
      the key is absent or null. */
  datatype SearchResponse = SearchResponse(organic: Option<seq<map<string, string>>>)

  /** The external collaborators. A `Failure` is the message of the exception the
      call raised. `fetch` yields the page contents of the loaded documents. */
  datatype Services = Services(
    search: SearchRequest -> Result<SearchResponse, string>,
    fetch: string -> Result<seq<string>, string>,
    detect: (string, string) -> Result<string, string>,
    explain: string -> Result<string, string>,
    synthesize: (string, string) -> Result<string, string>)

  /** An analyzer: its configuration, the fallacy table rendered as text
      (`fallacies_df.to_string()`), and its collaborators. */
  datatype FallacyAnalyzer = FallacyAnalyzer(
    config: AnalysisConfig,
    fallaciesTable: string,
    services: Services)

  /** One collaborator call, with the arguments it was given. */
  datatype Call =
    | SearchCall(request: SearchRequest)
    | FetchCall(url: string)
    | DetectCall(content: string, fallacies: string)
    | ExplainCall(detectedFallacies: string)
    | SynthesizeCall(summary: string, detailedAnalysis: string)

  /** The record a pipeline step returns, with the calls it made, in order. */
  datatype Run = Run(result: map<string, string>, trace: seq<Call>)

  const SearchResultCount: int := 5
  const NoArticlesFound: string := "No articles found for the given search criteria"
  const LoadFailedPrefix: string := "Article loading failed: "
  const AnalysisFailedPrefix: string := "Analysis failed: "
  /** `str(e)` of the `IndexError` raised by `article_content[0]` on an empty list. */
  const IndexErrorMessage: string := "list index out of range"

  const ArticleKeys: set<string> := {"url", "title", "content"}
  const AnalysisKeys: set<string> :=
    {"title", "url", "detected_fallacies", "educational_explanations", "synthesized_result"}

  function ErrorResult(message: string): map<string, string> {
    map["error" := message]
  }

  /** `str(e)` of the `KeyError` raised by a missing dictionary key. */
  function KeyErrorMessage(key: string): string {
    "'" + key + "'"
  }

  predicate IsModelCall(c: Call) {
    c.DetectCall? || c.ExplainCall? || c.SynthesizeCall?
  }

  /** How many language-model calls a trace holds. */
  function ModelCalls(trace: seq<Call>): nat {
    if trace == [] then 0
    else (if IsModelCall(trace[0]) then 1 else 0) + ModelCalls(trace[1..])
  }

  lemma {:induction false} ModelCallsAppend(t: seq<Call>, u: seq<Call>)
    ensures ModelCalls(t + u) == ModelCalls(t) + ModelCalls(u)
  {
    if t == [] {
      assert t + u == u;
    } else {
      assert (t + u)[1..] == t[1..] + u;
      ModelCallsAppend(t[1..], u);
    }
  }

  lemma {:induction false} ModelCallsCount(t: seq<Call>)
    ensures (forall i :: 0 <= i < |t| ==> IsModelCall(t[i])) ==> ModelCalls(t) == |t|
    ensures (forall i :: 0 <= i < |t| ==> !IsModelCall(t[i])) ==> ModelCalls(t) == 0
  {
    if t != [] {
      ModelCallsCount(t[1..]);
    }
  }

  /** The collaborator answered `c` without raising. */
  predicate Succeeds(svc: Services, c: Call) {
    match c
    case SearchCall(req) => svc.search(req).Success?
    case FetchCall(url) => svc.fetch(url).Success?
    case DetectCall(content, table) => svc.detect(content, table).Success?
    case ExplainCall(detected) => svc.explain(detected).Success?
    case SynthesizeCall(summary, analysis) => svc.synthesize(summary, analysis).Success?
  }

  /** The search query: `site:<domain> <topic>` when a domain is given, the topic
      itself otherwise. */
  function BuildQuery(topic: string, domain: string): (q: string)
    ensures domain == "" ==> q == topic
    ensures domain != "" ==>
              && |q| == 6 + |domain| + |topic|
              && q[..5] == "site:"
              && q[5..5 + |domain|] == domain
              && q[5 + |domain|] == ' '
              && q[6 + |domain|..] == topic
  {
    if domain != "" then "site:" + domain + " " + topic else topic
  }

  /** The search request `load_article` posts. */
  function SearchRequestFor(a: FallacyAnalyzer, topic: string, domain: string): SearchRequest {
    SearchRequest(BuildQuery(topic, domain), a.config.serperApiKey, SearchResultCount)
  }

  /** `load_article(search_topic, domain)`: one search request, then, unless the
      search raised or found nothing, `LoadFirstResult` on the first entry. */
  function LoadArticle(a: FallacyAnalyzer, topic: string, domain: string := ""): (run: Run)
    ensures run.result.Keys == {"error"} || run.result.Keys == ArticleKeys
    ensures "error" in run.result ==>
              run.result["error"] == NoArticlesFound || IsPrefix(LoadFailedPrefix, run.result["error"])
    ensures 1 <= |run.trace| <= 2
    ensures run.trace[0] == SearchCall(SearchRequestFor(a, topic, domain))
    ensures |run.trace| == 2 ==> run.trace[1].FetchCall?
    ensures "error" !in run.result ==>
              |run.trace| == 2 && run.trace[1] == FetchCall(run.result["url"])
    ensures forall i :: 0 <= i < |run.trace| - 1 ==> Succeeds(a.services, run.trace[i])
    ensures "error" !in run.result ==> forall i :: 0 <= i < |run.trace| ==> Succeeds(a.services, run.trace[i])
    ensures "error" !in run.result && a.config.articleCharLimit >= 0 ==>
              |run.result["content"]| <= a.config.articleCharLimit + 3
  {
    var req := SearchRequestFor(a, topic, domain);
    match a.services.search(req)
    case Failure(e) => Run(ErrorResult(LoadFailedPrefix + e), [SearchCall(req)])
    case Success(response) =>
      if response.organic.None? || |response.organic.value| == 0 then
        Run(ErrorResult(NoArticlesFound), [SearchCall(req)])
      else
        LoadFirstResult(a, req, response.organic.value[0])
  }

  /** The rest of `load_article` once the search `req` has answered with `first` as
      its first entry: read `link` and `title`, load the page, clean its text. A
      `KeyError`, a loader fault or an empty page list becomes an "Article loading
      failed" record. */
  function LoadFirstResult(a: FallacyAnalyzer, req: SearchRequest, first: map<string, string>): (run: Run)
    requires a.services.search(req).Success?
    ensures run.result.Keys == {"error"} || run.result.Keys == ArticleKeys
    ensures "error" in run.result ==> IsPrefix(LoadFailedPrefix, run.result["error"])
    ensures run.trace == [SearchCall(req)]
         || ("link" in first && "title" in first && run.trace == [SearchCall(req), FetchCall(first["link"])])
    ensures "error" !in run.result ==>
              && run.trace == [SearchCall(req), FetchCall(run.result["url"])]
              && a.services.fetch(run.result["url"]).Success?
    ensures "error" !in run.result && a.config.articleCharLimit >= 0 ==>
              |run.result["content"]| <= a.config.articleCharLimit + 3
  {
    if "link" !in first then
      Run(ErrorResult(LoadFailedPrefix + KeyErrorMessage("link")), [SearchCall(req)])
    else if "title" !in first then
      Run(ErrorResult(LoadFailedPrefix + KeyErrorMessage("title")), [SearchCall(req)])
    else
      var url := first["link"];
      var fetched := [SearchCall(req), FetchCall(url)];
      match a.services.fetch(url)
      case Failure(e) => Run(ErrorResult(LoadFailedPrefix + e), fetched)
      case Success(pages) =>
        if |pages| == 0 then
          Run(ErrorResult(LoadFailedPrefix + IndexErrorMessage), fetched)
        else
          var content := CleanArticleText(pages[0], a.config.articleCharLimit);
          Run(map["url" := url, "title" := first["title"], "content" := content], fetched)
  }

  /** `analyze_article(search_topic, domain)`: load the article, return a failed load
      as it is, otherwise run the model stages on it. */
  function AnalyzeArticle(a: FallacyAnalyzer, topic: string, domain: string := ""): (run: Run)
    ensures run.result.Keys == {"error"} || run.result.Keys == AnalysisKeys
  {
    var loaded := LoadArticle(a, topic, domain);
    if "error" in loaded.result then loaded
    else
      var staged := RunStages(a, loaded.result);
      Run(staged.result, loaded.trace + staged.trace)
  }

  /** The model stages of `analyze_article` on a loaded `article`, with the calls
      they make: detection on the content and the fallacy table, explanation on the
      stripped detection output, synthesis on the content and the explanations. The
      first stage that raises ends the run with an "Analysis failed" record. */
  function RunStages(a: FallacyAnalyzer, article: map<string, string>): (run: Run)
    requires article.Keys == ArticleKeys
    ensures run.result.Keys == {"error"} || run.result.Keys == AnalysisKeys
    ensures "error" in run.result ==> IsPrefix(AnalysisFailedPrefix, run.result["error"])
    ensures 0 < |run.trace| <= 3
    ensures "error" !in run.result ==> |run.trace| == 3
  {
    var content := article["content"];
    var svc := a.services;
    var t1 := [DetectCall(content, a.fallaciesTable)];
    match svc.detect(content, a.fallaciesTable)
    case Failure(e) => Run(ErrorResult(AnalysisFailedPrefix + e), t1)
    case Success(detected) =>
      var cleaned := Strip(detected);
      var t2 := t1 + [ExplainCall(cleaned)];
      match svc.explain(cleaned)
      case Failure(e) => Run(ErrorResult(AnalysisFailedPrefix + e), t2)
      case Success(explanations) =>
        var t3 := t2 + [SynthesizeCall(content, explanations)];
        match svc.synthesize(content, explanations)
        case Failure(e) => Run(ErrorResult(AnalysisFailedPrefix + e), t3)
        case Success(synthesis) =>
          Run(map["title" := article["title"],
                  "url" := article["url"],
                  "detected_fallacies" := detected,
                  "educational_explanations" := explanations,
                  "synthesized_result" := synthesis], t3)
  }

  // ---------------------------------------------------------------------------
  // load_article, branch by branch
  // ---------------------------------------------------------------------------

  /** No `organic` results: the "no articles" error, and nothing is fetched. */
  lemma LoadArticleNoResults(a: FallacyAnalyzer, topic: string, domain: string,
                             response: SearchResponse)
    requires a.services.search(SearchRequestFor(a, topic, domain)) == Success(response)
    requires response.organic.None? || |response.organic.value| == 0
    ensures LoadArticle(a, topic, domain)
         == Run(ErrorResult(NoArticlesFound), [SearchCall(SearchRequestFor(a, topic, domain))])
  {
  }

  /** The first result is used: its link is fetched, and the record holds that
      link, its title and the cleaned text of the first loaded page. */
  lemma LoadArticleFirstResult(a: FallacyAnalyzer, topic: string, domain: string,
                               entries: seq<map<string, string>>, pages: seq<string>)
    requires a.services.search(SearchRequestFor(a, topic, domain))
          == Success(SearchResponse(Some(entries)))
    requires |entries| > 0 && "link" in entries[0] && "title" in entries[0]
    requires a.services.fetch(entries[0]["link"]) == Success(pages) && |pages| > 0
    ensures LoadArticle(a, topic, domain)
         == Run(map["url" := entries[0]["link"],
                    "title" := entries[0]["title"],
                    "content" := CleanArticleText(pages[0], a.config.articleCharLimit)],
                [SearchCall(SearchRequestFor(a, topic, domain)), FetchCall(entries[0]["link"])])
  {
  }

  /** A fault of the search call becomes an "Article loading failed" record. */
  lemma LoadArticleSearchFault(a: FallacyAnalyzer, topic: string, domain: string)
    requires a.services.search(SearchRequestFor(a, topic, domain)).Failure?
    ensures LoadArticle(a, topic, domain)
         == Run(ErrorResult(LoadFailedPrefix + a.services.search(SearchRequestFor(a, topic, domain)).error),
                [SearchCall(SearchRequestFor(a, topic, domain))])
  {
  }

  /** A first result without `link` or `title` raises `KeyError`, which becomes an
      "Article loading failed" record before anything is fetched. */
  lemma LoadArticleMissingKey(a: FallacyAnalyzer, topic: string, domain: string,
                              entries: seq<map<string, string>>)
    requires a.services.search(SearchRequestFor(a, topic, domain))
          == Success(SearchResponse(Some(entries)))
    requires |entries| > 0 && ("link" !in entries[0] || "title" !in entries[0])
    ensures LoadArticle(a, topic, domain)
         == Run(ErrorResult(LoadFailedPrefix
                  + KeyErrorMessage(if "link" !in entries[0] then "link" else "title")),
                [SearchCall(SearchRequestFor(a, topic, domain))])
  {
  }

  /** A fault of the page load, or a load with no page, becomes an "Article loading
      failed" record after the one fetch. */
  lemma LoadArticleFetchFault(a: FallacyAnalyzer, topic: string, domain: string,
                              entries: seq<map<string, string>>)
    requires a.services.search(SearchRequestFor(a, topic, domain))
          == Success(SearchResponse(Some(entries)))
    requires |entries| > 0 && "link" in entries[0] && "title" in entries[0]
    ensures var url := entries[0]["link"];
            var trace := [SearchCall(SearchRequestFor(a, topic, domain)), FetchCall(url)];
            && (a.services.fetch(url).Failure? ==>
                  LoadArticle(a, topic, domain)
                  == Run(ErrorResult(LoadFailedPrefix + a.services.fetch(url).error), trace))
            && (a.services.fetch(url) == Success([]) ==>
                  LoadArticle(a, topic, domain)
                  == Run(ErrorResult(LoadFailedPrefix + IndexErrorMessage), trace))
  {
  }

  /** Loading an article never calls a model. */
  lemma LoadArticleNoModelCalls(a: FallacyAnalyzer, topic: string, domain: string)
    ensures ModelCalls(LoadArticle(a, topic, domain).trace) == 0
  {
    ModelCallsCount(LoadArticle(a, topic, domain).trace);
  }

  // ---------------------------------------------------------------------------
  // The model stages
  // ---------------------------------------------------------------------------

  /** When every stage answers, the three calls run in order on the right inputs and
      the record holds the raw detection output. */
  lemma RunStagesSuccess(a: FallacyAnalyzer, article: map<string, string>,
                         detected: string, explanations: string, synthesis: string)
    requires article.Keys == ArticleKeys
    requires a.services.detect(article["content"], a.fallaciesTable) == Success(detected)
    requires a.services.explain(Strip(detected)) == Success(explanations)
    requires a.services.synthesize(article["content"], explanations) == Success(synthesis)
    ensures RunStages(a, article)
         == Run(map["title" := article["title"],
                    "url" := article["url"],
                    "detected_fallacies" := detected,
                    "educational_explanations" := explanations,
                    "synthesized_result" := synthesis],
                [DetectCall(article["content"], a.fallaciesTable),
                 ExplainCall(Strip(detected)),
                 SynthesizeCall(article["content"], explanations)])
  {
  }

  /** A stage that raises ends the run: an "Analysis failed" record, and the trace
      stops at that stage's call. */
  lemma RunStagesFault(a: FallacyAnalyzer, article: map<string, string>)
    requires article.Keys == ArticleKeys
    ensures var content := article["content"];
            var svc := a.services;
            var detection := svc.detect(content, a.fallaciesTable);
            var run := RunStages(a, article);
            && (detection.Failure? ==>
                  run == Run(ErrorResult(AnalysisFailedPrefix + detection.error),
                             [DetectCall(content, a.fallaciesTable)]))
            && (detection.Success? && svc.explain(Strip(detection.value)).Failure? ==>
                  run == Run(ErrorResult(AnalysisFailedPrefix + svc.explain(Strip(detection.value)).error),
                             [DetectCall(content, a.fallaciesTable),
                              ExplainCall(Strip(detection.value))]))
            && (detection.Success? && svc.explain(Strip(detection.value)).Success? ==>
                  var explanations := svc.explain(Strip(detection.value)).value;
                  svc.synthesize(content, explanations).Failure? ==>
                    run == Run(ErrorResult(AnalysisFailedPrefix + svc.synthesize(content, explanations).error),
                               [DetectCall(content, a.fallaciesTable),
                                ExplainCall(Strip(detection.value)),
                                SynthesizeCall(content, explanations)]))
  {
  }

  /** The calls the stages add are model calls only; each but the last answered; an
      error means the last one raised; a success means all three answered. */
  lemma RunStagesShortCircuit(a: FallacyAnalyzer, article: map<string, string>)
    requires article.Keys == ArticleKeys
    ensures var run := RunStages(a, article);
            && ModelCalls(run.trace) == |run.trace|
            && (forall i :: 0 <= i < |run.trace| - 1 ==> Succeeds(a.services, run.trace[i]))
            && ("error" in run.result <==> !Succeeds(a.services, run.trace[|run.trace| - 1]))
  {
    var content := article["content"];
    var svc := a.services;
    var stages := RunStages(a, article).trace;
    var detection := svc.detect(content, a.fallaciesTable);
    RunStagesFault(a, article);
    if detection.Failure? {
      assert stages == [DetectCall(content, a.fallaciesTable)];
    } else if svc.explain(Strip(detection.value)).Failure? {
      assert stages == [DetectCall(content, a.fallaciesTable), ExplainCall(Strip(detection.value))];
    } else {
      var explanations := svc.explain(Strip(detection.value)).value;
      if svc.synthesize(content, explanations).Success? {
        RunStagesSuccess(a, article, detection.value, explanations,
                         svc.synthesize(content, explanations).value);
      }
      assert stages == [DetectCall(content, a.fallaciesTable), ExplainCall(Strip(detection.value)),
                        SynthesizeCall(content, explanations)];
    }
    ModelCallsCount(stages);
  }

  // ---------------------------------------------------------------------------
  // analyze_article
  // ---------------------------------------------------------------------------

  /** A failed load is returned as it is, and no model is called. */
  lemma AnalyzeArticleLoadError(a: FallacyAnalyzer, topic: string, domain: string)
    requires "error" in LoadArticle(a, topic, domain).result
    ensures AnalyzeArticle(a, topic, domain) == LoadArticle(a, topic, domain)
    ensures ModelCalls(AnalyzeArticle(a, topic, domain).trace) == 0
  {
    LoadArticleNoModelCalls(a, topic, domain);
  }

  /** When every stage answers: detection on the content and the fallacy table,
      explanation on the stripped detection output, synthesis on the content and the
      explanations; the record holds the raw detection output and the five keys. */
  lemma AnalyzeArticleSuccess(a: FallacyAnalyzer, topic: string, domain: string,
                              detected: string, explanations: string, synthesis: string)
    requires "error" !in LoadArticle(a, topic, domain).result
    requires var content := LoadArticle(a, topic, domain).result["content"];
             && a.services.detect(content, a.fallaciesTable) == Success(detected)
             && a.services.explain(Strip(detected)) == Success(explanations)
             && a.services.synthesize(content, explanations) == Success(synthesis)
    ensures var loaded := LoadArticle(a, topic, domain);
            var content := loaded.result["content"];
            AnalyzeArticle(a, topic, domain)
            == Run(map["title" := loaded.result["title"],
                       "url" := loaded.result["url"],
                       "detected_fallacies" := detected,
                       "educational_explanations" := explanations,
                       "synthesized_result" := synthesis],
                   loaded.trace + [DetectCall(content, a.fallaciesTable),
                                   ExplainCall(Strip(detected)),
                                   SynthesizeCall(content, explanations)])
  {
    var loaded := LoadArticle(a, topic, domain);
    RunStagesSuccess(a, loaded.result, detected, explanations, synthesis);
  }

  /** A fault in a stage becomes an "Analysis failed" record, and the trace ends with
      that stage's call. */
  lemma AnalyzeArticleStageFault(a: FallacyAnalyzer, topic: string, domain: string)
    requires "error" !in LoadArticle(a, topic, domain).result
    ensures var loaded := LoadArticle(a, topic, domain);
            var content := loaded.result["content"];
            var svc := a.services;
            var detection := svc.detect(content, a.fallaciesTable);
            var run := AnalyzeArticle(a, topic, domain);
            && (detection.Failure? ==>
                  run == Run(ErrorResult(AnalysisFailedPrefix + detection.error),
                             loaded.trace + [DetectCall(content, a.fallaciesTable)]))
            && (detection.Success? && svc.explain(Strip(detection.value)).Failure? ==>
                  run == Run(ErrorResult(AnalysisFailedPrefix + svc.explain(Strip(detection.value)).error),
                             loaded.trace + [DetectCall(content, a.fallaciesTable),
                                             ExplainCall(Strip(detection.value))]))
            && (detection.Success? && svc.explain(Strip(detection.value)).Success? ==>
                  var explanations := svc.explain(Strip(detection.value)).value;
                  svc.synthesize(content, explanations).Failure? ==>
                    run == Run(ErrorResult(AnalysisFailedPrefix + svc.synthesize(content, explanations).error),
                               loaded.trace + [DetectCall(content, a.fallaciesTable),
                                               ExplainCall(Strip(detection.value)),
                                               SynthesizeCall(content, explanations)]))
  {
    var loaded := LoadArticle(a, topic, domain);
    RunStagesFault(a, loaded.result);
  }

  /** The short-circuit law: the run starts with the search; every call but the last
      answered; a run that ends in a model call and reports an error ended because
      that call raised; a success made exactly three model calls, and no run makes
      more. */
  lemma AnalyzeArticleShortCircuit(a: FallacyAnalyzer, topic: string, domain: string)
    ensures var run := AnalyzeArticle(a, topic, domain);
            && 0 < |run.trace| <= 5
            && run.trace[0] == SearchCall(SearchRequestFor(a, topic, domain))
            && (forall i :: 0 <= i < |run.trace| - 1 ==> Succeeds(a.services, run.trace[i]))
            && ("error" in run.result && IsModelCall(run.trace[|run.trace| - 1]) ==>
                  !Succeeds(a.services, run.trace[|run.trace| - 1]))
            && ModelCalls(run.trace) <= 3
            && ("error" !in run.result ==> ModelCalls(run.trace) == 3)
  {
    var loaded := LoadArticle(a, topic, domain);
    LoadArticleNoModelCalls(a, topic, domain);
    var run := AnalyzeArticle(a, topic, domain);
    if "error" !in loaded.result {
      RunStagesShortCircuit(a, loaded.result);
      var stages := RunStages(a, loaded.result).trace;
      assert run.trace == loaded.trace + stages;
      ModelCallsAppend(loaded.trace, stages);
      forall i | 0 <= i < |run.trace| - 1
        ensures Succeeds(a.services, run.trace[i])
      {
        if i >= |loaded.trace| {
          assert run.trace[i] == stages[i - |loaded.trace|];
        }
      }
    }
  }

  /** Every error message names where the run failed. */
  lemma AnalyzeArticleErrorMessages(a: FallacyAnalyzer, topic: string, domain: string)
    ensures var run := AnalyzeArticle(a, topic, domain);
            "error" in run.result ==>
              || run.result["error"] == NoArticlesFound
              || IsPrefix(LoadFailedPrefix, run.result["error"])
              || IsPrefix(AnalysisFailedPrefix, run.result["error"])
  {
  }

  /** A record with exactly the five success keys shows its own values in the
      report, and the supplied timestamp in place of the missing `timestamp`. */
  lemma SuccessRecordFields(r: map<string, string>, now: string)
    requires r.Keys == AnalysisKeys
    ensures ReportFields(r, now)
         == [r["title"], r["url"], now, r["detected_fallacies"], r["educational_explanations"],
             r["synthesized_result"]]
  {
    var f := ReportFields(r, now);
    assert "timestamp" !in AnalysisKeys;
    assert f[2] == now;
    assert f == [f[0], f[1], f[2], f[3], f[4], f[5]];
  }

  /** Rendering a run: an error shows its message alone; a success shows its own
      title, url and three stage outputs, and the supplied timestamp, since the
      record carries no `timestamp` key. */
  lemma AnalyzeArticleReport(a: FallacyAnalyzer, topic: string, domain: string, now: string)
    ensures var run := AnalyzeArticle(a, topic, domain);
            && ("error" in run.result ==>
                  FormatAnalysisResult(run.result, now) == ErrorPrefix + run.result["error"])
            && ("error" !in run.result ==>
                  ReportFields(run.result, now)
                  == [run.result["title"], run.result["url"], now,
                      run.result["detected_fallacies"], run.result["educational_explanations"],
                      run.result["synthesized_result"]])
  {
    var run := AnalyzeArticle(a, topic, domain);
    if "error" !in run.result {
      SuccessRecordFields(run.result, now);
    }
  }
}

=== FILE: config.dfy ===
/**
 `AnalysisConfig` of `fallacy_detector/config.py`: run parameters with defaults, and
 the `__post_init__` step that fills empty API keys from the environment and refuses
 to build a configuration without both keys.
 */
module Config {
  import opened Wrappers

  /** The dataclass fields (the float `temperature` is not modelled). */
  datatype AnalysisConfig = AnalysisConfig(
    modelName: string,
    maxTokens: int,
    articleCharLimit: int,
    openaiApiKey: string,
    serperApiKey: string)

  const DefaultModelName: string := "gpt-4.1-nano"
  const DefaultMaxTokens: int := 16000
  const DefaultArticleCharLimit: int := 5000

  const OpenAIKeyVar: string := "OPENAI_API_KEY"
  const SerperKeyVar: string := "SERPER_API_KEY"

  const OpenAIKeyMissing: string :=
    "OpenAI API key required. Set OPENAI_API_KEY environment variable."
  const SerperKeyMissing: string :=
    "Serper API key required. Set SERPER_API_KEY environment variable."

  /** The field values before `__post_init__` when the caller passes nothing. */
  const Defaults: AnalysisConfig :=
    AnalysisConfig(DefaultModelName, DefaultMaxTokens, DefaultArticleCharLimit, "", "")

  /** `os.getenv(name, "")`. */
  function Getenv(env: map<string, string>, name: string): string {
    if name in env then env[name] else ""
  }

  /** A key as `__post_init__` leaves it: kept when non-empty, otherwise read from
      the environment variable `name`. */
  function ResolveKey(given: string, env: map<string, string>, name: string): (k: string)
    ensures given != "" ==> k == given
    ensures given == "" ==> k == Getenv(env, name)
  {
    if given == "" then Getenv(env, name) else given
  }

  /** `__post_init__`: resolve both keys, then fail on an empty OpenAI key first and
      on an empty Serper key second. A raised `ValueError` is a `Failure`. */
  function PostInit(c: AnalysisConfig, env: map<string, string>): (r: Result<AnalysisConfig, string>)
    ensures r.Success? ==> r.value.openaiApiKey != "" && r.value.serperApiKey != ""
    ensures r.Success? ==> && r.value.modelName == c.modelName
                           && r.value.maxTokens == c.maxTokens
                           && r.value.articleCharLimit == c.articleCharLimit
    ensures r.Failure? ==> r.error == OpenAIKeyMissing || r.error == SerperKeyMissing
  {
    var openai := ResolveKey(c.openaiApiKey, env, OpenAIKeyVar);
    var serper := ResolveKey(c.serperApiKey, env, SerperKeyVar);
    if openai == "" then Failure(OpenAIKeyMissing)
    else if serper == "" then Failure(SerperKeyMissing)
    else Success(c.(openaiApiKey := openai, serperApiKey := serper))
  }

  /** `AnalysisConfig(...)`: the dataclass constructor followed by `__post_init__`. */
  function NewAnalysisConfig(modelName: string, maxTokens: int, articleCharLimit: int,
                             openaiApiKey: string, serperApiKey: string,
                             env: map<string, string>): (r: Result<AnalysisConfig, string>)
    ensures r.Success? ==> r.value.openaiApiKey != "" && r.value.serperApiKey != ""
    ensures r.Success? ==> && r.value.modelName == modelName
                           && r.value.maxTokens == maxTokens
                           && r.value.articleCharLimit == articleCharLimit
  {
    PostInit(AnalysisConfig(modelName, maxTokens, articleCharLimit, openaiApiKey, serperApiKey), env)
  }

  /** Construction succeeds exactly when both keys resolve to something non-empty,
      and then the keys are the resolved ones. */
  lemma PostInitSucceedsIff(c: AnalysisConfig, env: map<string, string>)
    ensures PostInit(c, env).Success? <==>
              ResolveKey(c.openaiApiKey, env, OpenAIKeyVar) != ""
              && ResolveKey(c.serperApiKey, env, SerperKeyVar) != ""
    ensures PostInit(c, env).Success? ==>
              && PostInit(c, env).value.openaiApiKey == ResolveKey(c.openaiApiKey, env, OpenAIKeyVar)
              && PostInit(c, env).value.serperApiKey == ResolveKey(c.serperApiKey, env, SerperKeyVar)
  {
  }

  /** A key given to the constructor is kept whatever the environment holds. */
  lemma GivenKeysWin(c: AnalysisConfig, env1: map<string, string>, env2: map<string, string>)
    requires c.openaiApiKey != "" && c.serperApiKey != ""
    ensures PostInit(c, env1) == PostInit(c, env2) == Success(c)
  {
  }

  /** An empty OpenAI key is taken from `OPENAI_API_KEY`; when that is absent or
      empty the key stays empty and construction fails with the OpenAI message. */
  lemma EmptyOpenAIKeyFromEnvironment(c: AnalysisConfig, env: map<string, string>)
    requires c.openaiApiKey == ""
    ensures PostInit(c, env).Success? ==>
              OpenAIKeyVar in env && PostInit(c, env).value.openaiApiKey == env[OpenAIKeyVar]
    ensures Getenv(env, OpenAIKeyVar) == "" ==> PostInit(c, env) == Failure(OpenAIKeyMissing)
  {
  }

  /** The same for the Serper key: taken from the environment, and when it stays
      empty construction fails with the Serper message unless the OpenAI key is
      missing too. */
  lemma EmptySerperKeyFromEnvironment(c: AnalysisConfig, env: map<string, string>)
    requires c.serperApiKey == ""
    ensures PostInit(c, env).Success? ==>
              SerperKeyVar in env && PostInit(c, env).value.serperApiKey == env[SerperKeyVar]
    ensures Getenv(env, SerperKeyVar) == "" && ResolveKey(c.openaiApiKey, env, OpenAIKeyVar) != "" ==>
              PostInit(c, env) == Failure(SerperKeyMissing)
  {
  }

  /** With neither key available the OpenAI error is the one raised. */
  lemma OpenAIKeyCheckedFirst(c: AnalysisConfig, env: map<string, string>)
    requires ResolveKey(c.openaiApiKey, env, OpenAIKeyVar) == ""
    ensures PostInit(c, env) == Failure(OpenAIKeyMissing)
  {
  }

  /** A built configuration passes `__post_init__` again unchanged. */
  lemma PostInitIdempotent(c: AnalysisConfig, env1: map<string, string>, env2: map<string, string>)
    requires PostInit(c, env1).Success?
    ensures PostInit(PostInit(c, env1).value, env2) == PostInit(c, env1)
  {
  }

  /** `AnalysisConfig()` with keys in the environment: the documented defaults,
      with only the two key fields changed. */
  lemma DefaultConfiguration(env: map<string, string>)
    requires Getenv(env, OpenAIKeyVar) != "" && Getenv(env, SerperKeyVar) != ""
    ensures PostInit(Defaults, env).Success?
    ensures var c := PostInit(Defaults, env).value;
            && c.modelName == "gpt-4.1-nano"
            && c.maxTokens == 16000
            && c.articleCharLimit == 5000
            && c.openaiApiKey == env[OpenAIKeyVar]
            && c.serperApiKey == env[SerperKeyVar]
  {
  }
}

=== FILE: py_str.dfy ===
/**
 Python string built-ins the core relies on: `str.isspace`, `str.split()` with no
 argument, `' '.join`, `str.strip()`, `str.rfind`, the slice `s[:n]` and `c * n`.
 */
module PyStr {

  /** Python's `str.isspace` for one character (the Unicode White_Space set plus the
      four ASCII information separators U+001C..U+001F). */
  predicate IsSpace(c: char) {
    || ('\t' <= c <= '\r')
    || ('\U{001C}' <= c <= ' ')
    || c == '\U{0085}' || c == '\U{00A0}' || c == '\U{1680}'
    || ('\U{2000}' <= c <= '\U{200A}')
    || c == '\U{2028}' || c == '\U{2029}' || c == '\U{202F}' || c == '\U{205F}'
    || c == '\U{3000}'
  }

  /** Below U+0080 the whitespace set is exactly the six C `isspace` characters and
      the four information separators. */
  lemma AsciiIsSpace(c: char)
    requires c < '\U{0080}'
    ensures IsSpace(c) <==>
      c in {' ', '\t', '\n', '\U{000B}', '\U{000C}', '\r', '\U{001C}', '\U{001D}', '\U{001E}', '\U{001F}'}
  {
  }

  predicate IsPrefix(p: string, s: string) {
    |p| <= |s| && p == s[..|p|]
  }

  /** A word as `str.split()` yields it: non-empty, no whitespace. */
  predicate IsWord(w: string) {
    |w| > 0 && forall i :: 0 <= i < |w| ==> !IsSpace(w[i])
  }

  predicate AllWords(ws: seq<string>) {
    forall i :: 0 <= i < |ws| ==> IsWord(ws[i])
  }

  /** Length of the longest whitespace-free prefix of `s`. */
  function WordLen(s: string): (n: nat)
    ensures n <= |s|
    ensures forall i :: 0 <= i < n ==> !IsSpace(s[i])
    ensures n < |s| ==> IsSpace(s[n])
  {
    if s == [] || IsSpace(s[0]) then 0 else 1 + WordLen(s[1..])
  }

  /** `s.split()`: the maximal whitespace-free runs of `s`, left to right. */
  function Split(s: string): (ws: seq<string>)
    ensures AllWords(ws)
    decreases |s|
  {
    if s == [] then []
    else if IsSpace(s[0]) then Split(s[1..])
    else
      var n := WordLen(s);
      [s[..n]] + Split(s[n..])
  }

  /** `' '.join(ws)`. */
  function Join(ws: seq<string>): string {
    if |ws| == 0 then []
    else if |ws| == 1 then ws[0]
    else ws[0] + " " + Join(ws[1..])
  }

  /** `' '.join(s.split())`: every whitespace run becomes one space, ends are trimmed. */
  function Collapse(s: string): (t: string)
    ensures IsCollapsed(t)
    ensures Split(t) == Split(s)
  {
    JoinIsCollapsed(Split(s));
    SplitJoin(Split(s));
    Join(Split(s))
  }

  /** The shape `Collapse` produces: the only whitespace is a single space standing
      between two non-whitespace characters. */
  ghost predicate IsCollapsed(t: string) {
    && (forall i :: 0 <= i < |t| && IsSpace(t[i]) ==> t[i] == ' ')
    && (|t| > 0 ==> !IsSpace(t[0]) && !IsSpace(t[|t| - 1]))
    && (forall i, j :: 0 <= i < j < |t| && j == i + 1 ==> !(IsSpace(t[i]) && IsSpace(t[j])))
  }

  /** The non-whitespace characters of `s`, in order. */
  function NonSpace(s: string): string {
    if s == [] then []
    else if IsSpace(s[0]) then NonSpace(s[1..])
    else [s[0]] + NonSpace(s[1..])
  }

  function Concat(ws: seq<string>): string {
    if ws == [] then [] else ws[0] + Concat(ws[1..])
  }

  /** Number of whitespace characters `s.lstrip()` removes. */
  function LeadingSpaces(s: string): (n: nat)
    ensures n <= |s|
    ensures forall i :: 0 <= i < n ==> IsSpace(s[i])
    ensures n < |s| ==> !IsSpace(s[n])
  {
    if s == [] || !IsSpace(s[0]) then 0 else 1 + LeadingSpaces(s[1..])
  }

  /** Number of whitespace characters `s.rstrip()` removes. */
  function TrailingSpaces(s: string): (n: nat)
    ensures n <= |s|
    ensures forall i :: |s| - n <= i < |s| ==> IsSpace(s[i])
    ensures n < |s| ==> !IsSpace(s[|s| - n - 1])
  {
    if s == [] || !IsSpace(s[|s| - 1]) then 0 else 1 + TrailingSpaces(s[..|s| - 1])
  }

  /** `s.strip()`: what is left after removing the leading whitespace run and the
      trailing whitespace run; it neither starts nor ends with whitespace. */
  function Strip(s: string): (r: string)
    ensures LeadingSpaces(s) + |r| <= |s|
    ensures r == s[LeadingSpaces(s)..LeadingSpaces(s) + |r|]
    ensures forall i :: LeadingSpaces(s) + |r| <= i < |s| ==> IsSpace(s[i])
    ensures r == [] || (!IsSpace(r[0]) && !IsSpace(r[|r| - 1]))
  {
    var a := LeadingSpaces(s);
    if a == |s| then [] else s[a..|s| - TrailingSpaces(s)]
  }

  /** `s.rfind(c)`: the index of the last occurrence of `c`, or -1. */
  function RFind(s: string, c: char): (r: int)
    ensures -1 <= r < |s|
    ensures r >= 0 ==> s[r] == c
    ensures forall j :: r < j < |s| ==> s[j] != c
  {
    if s == [] then -1
    else if s[|s| - 1] == c then |s| - 1
    else RFind(s[..|s| - 1], c)
  }

  /** The slice `s[:n]`, including Python's reading of a negative `n` as
      "all but the last -n characters". */
  function PyHead(s: string, n: int): (r: string)
    ensures IsPrefix(r, s)
    ensures 0 <= n <= |s| ==> |r| == n
    ensures n > |s| ==> r == s
    ensures n < 0 ==> |r| == if |s| + n >= 0 then |s| + n else 0
  {
    if n >= 0 then (if n <= |s| then s[..n] else s)
    else if |s| + n >= 0 then s[..|s| + n]
    else []
  }

  /** `c * n` for a one-character string `c`. */
  function Repeat(c: char, n: nat): (r: string)
    ensures |r| == n
    ensures forall i :: 0 <= i < n ==> r[i] == c
  {
    if n == 0 then [] else [c] + Repeat(c, n - 1)
  }

  // ---------------------------------------------------------------------------
  // What `Collapse` promises
  // ---------------------------------------------------------------------------

  lemma {:induction false} NonSpaceAppend(a: string, b: string)
    ensures NonSpace(a + b) == NonSpace(a) + NonSpace(b)
  {
    if a == [] {
      assert a + b == b;
    } else {
      assert (a + b)[1..] == a[1..] + b;
      NonSpaceAppend(a[1..], b);
    }
  }

  lemma {:induction false} NonSpaceOfWord(w: string)
    requires forall i :: 0 <= i < |w| ==> !IsSpace(w[i])
    ensures NonSpace(w) == w
  {
    if w != [] {
      NonSpaceOfWord(w[1..]);
    }
  }

  /** The words of `s`, glued together, are exactly its non-whitespace characters. */
  lemma {:induction false} SplitKeepsNonSpace(s: string)
    ensures Concat(Split(s)) == NonSpace(s)
    decreases |s|
  {
    if s == [] {
    } else if IsSpace(s[0]) {
      SplitKeepsNonSpace(s[1..]);
    } else {
      var n := WordLen(s);
      assert s == s[..n] + s[n..];
      NonSpaceAppend(s[..n], s[n..]);
      NonSpaceOfWord(s[..n]);
      SplitKeepsNonSpace(s[n..]);
    }
  }

  lemma {:induction false} JoinKeepsNonSpace(ws: seq<string>)
    requires AllWords(ws)
    ensures NonSpace(Join(ws)) == Concat(ws)
  {
    if |ws| == 0 {
    } else if |ws| == 1 {
      NonSpaceOfWord(ws[0]);
      assert Concat(ws) == ws[0] + Concat(ws[1..]);
    } else {
      NonSpaceAppend(ws[0] + " ", Join(ws[1..]));
      NonSpaceAppend(ws[0], " ");
      NonSpaceOfWord(ws[0]);
      assert NonSpace(" ") == [];
      JoinKeepsNonSpace(ws[1..]);
    }
  }

  /** Collapsing never drops, adds or reorders a non-whitespace character. */
  lemma CollapseKeepsNonSpace(s: string)
    ensures NonSpace(Collapse(s)) == NonSpace(s)
  {
    SplitKeepsNonSpace(s);
    JoinKeepsNonSpace(Split(s));
  }

  lemma {:induction false} JoinIsCollapsed(ws: seq<string>)
    requires AllWords(ws)
    ensures IsCollapsed(Join(ws))
    ensures |ws| > 0 ==> |Join(ws)| > 0
  {
    if |ws| <= 1 {
    } else {
      var w := ws[0];
      var j := Join(ws[1..]);
      JoinIsCollapsed(ws[1..]);
      var t := w + " " + j;
      assert Join(ws) == t;
      assert forall i :: 0 <= i < |w| ==> t[i] == w[i];
      assert t[|w|] == ' ';
      assert forall i :: |w| < i < |t| ==> t[i] == j[i - |w| - 1];
      forall i, k | 0 <= i < k < |t| && k == i + 1
        ensures !(IsSpace(t[i]) && IsSpace(t[k]))
      {
        if i > |w| {
          assert t[i] == j[i - |w| - 1] && t[k] == j[k - |w| - 1];
        }
      }
    }
  }

  lemma {:induction false} WordLenAfterWord(w: string, r: string)
    requires IsWord(w)
    requires r == [] || IsSpace(r[0])
    ensures WordLen(w + r) == |w|
  {
    assert (w + r)[0] == w[0];
    assert (w + r)[1..] == w[1..] + r;
    if |w| == 1 {
      assert w[1..] + r == r;
    } else {
      WordLenAfterWord(w[1..], r);
    }
  }

  /** Splitting after a whole word takes that word off first. */
  lemma SplitAfterWord(w: string, r: string)
    requires IsWord(w)
    requires r == [] || IsSpace(r[0])
    ensures Split(w + r) == [w] + Split(r)
  {
    var s := w + r;
    WordLenAfterWord(w, r);
    assert s[0] == w[0];
    assert s[..|w|] == w;
    assert s[|w|..] == r;
  }

  /** Joining words with single spaces and splitting again gives back the words. */
  lemma {:induction false} SplitJoin(ws: seq<string>)
    requires AllWords(ws)
    ensures Split(Join(ws)) == ws
  {
    if |ws| == 0 {
    } else if |ws| == 1 {
      SplitAfterWord(ws[0], []);
      assert ws[0] + [] == ws[0];
    } else {
      var j := Join(ws[1..]);
      JoinIsCollapsed(ws[1..]);
      assert Join(ws) == ws[0] + (" " + j);
      SplitAfterWord(ws[0], " " + j);
      assert (" " + j)[1..] == j;
      SplitJoin(ws[1..]);
    }
  }

  lemma SuffixIsCollapsed(t: string, k: nat)
    requires IsCollapsed(t)
    requires k <= |t| && (k == |t| || !IsSpace(t[k]))
    ensures IsCollapsed(t[k..])
  {
    var u := t[k..];
    assert forall i :: 0 <= i < |u| ==> u[i] == t[k + i];
  }

  lemma JoinCons(w: string, rest: seq<string>)
    requires |rest| > 0
    ensures Join([w] + rest) == w + " " + Join(rest)
  {
    assert ([w] + rest)[1..] == rest;
  }

  /** In a collapsed string, the first word is followed by nothing or by one space
      and a further non-whitespace character. */
  lemma FirstWordOfCollapsed(t: string)
    requires IsCollapsed(t) && t != []
    ensures WordLen(t) > 0
    ensures WordLen(t) < |t| ==>
      t[WordLen(t)] == ' ' && WordLen(t) + 1 < |t| && !IsSpace(t[WordLen(t) + 1])
  {
    var n := WordLen(t);
    if n < |t| {
      assert IsSpace(t[n]);
      if n + 1 < |t| {
        assert !(IsSpace(t[n]) && IsSpace(t[n + 1]));
      }
    }
  }

  /** A word, one space, then a non-whitespace character: the word splits off and
      the space is skipped. */
  lemma SplitAtSpace(t: string)
    requires t != [] && WordLen(t) + 1 < |t|
    requires t[WordLen(t)] == ' ' && !IsSpace(t[WordLen(t) + 1]) && WordLen(t) > 0
    ensures Split(t) == [t[..WordLen(t)]] + Split(t[WordLen(t) + 1..])
    ensures |Split(t[WordLen(t) + 1..])| > 0
    ensures t == t[..WordLen(t)] + " " + t[WordLen(t) + 1..]
  {
    var n := WordLen(t);
    var tail := t[n..];
    assert tail[0] == ' ' && tail[1..] == t[n + 1..];
    assert Split(tail) == Split(t[n + 1..]);
  }

  /** A string that is already collapsed is left alone. */
  lemma {:induction false} CollapseFixesCollapsed(t: string)
    requires IsCollapsed(t)
    ensures Collapse(t) == t
    decreases |t|
  {
    if t != [] {
      var n := WordLen(t);
      FirstWordOfCollapsed(t);
      if n == |t| {
        assert t[..n] == t;
        assert Split(t) == [t] + Split([]);
      } else {
        var rest := t[n + 1..];
        SplitAtSpace(t);
        SuffixIsCollapsed(t, n + 1);
        CollapseFixesCollapsed(rest);
        JoinCons(t[..n], Split(rest));
      }
    }
  }

  /** Exactly the collapsed strings are fixed points of `Collapse`. */
  lemma CollapseFixedIff(t: string)
    ensures Collapse(t) == t <==> IsCollapsed(t)
  {
    if IsCollapsed(t) {
      CollapseFixesCollapsed(t);
    }
  }

  /** `Collapse(s)` is the one collapsed string with the same words as `s`. */
  lemma CollapseUnique(s: string, t: string)
    requires IsCollapsed(t) && Split(t) == Split(s)
    ensures t == Collapse(s)
  {
    CollapseFixesCollapsed(t);
  }

  lemma CollapseIdempotent(s: string)
    ensures Collapse(Collapse(s)) == Collapse(s)
  {
    CollapseFixesCollapsed(Collapse(s));
  }

  // ---------------------------------------------------------------------------
  // A character-by-character reference for `Split`
  // ---------------------------------------------------------------------------

  /** Reading `s` left to right with the word `cur` read so far and the finished
      words `done`: a non-whitespace character extends `cur`; whitespace, or the
      end of `s`, closes `cur` if it is not empty. */
  function SplitScan(s: string, cur: string, done: seq<string>): seq<string> {
    if s == [] then (if cur == [] then done else done + [cur])
    else if IsSpace(s[0]) then SplitScan(s[1..], [], if cur == [] then done else done + [cur])
    else SplitScan(s[1..], cur + [s[0]], done)
  }

  /** A word (or nothing) read so far, then whitespace: `split()` closes the word
      and skips the whitespace character. */
  lemma SplitCloseWord(cur: string, s: string)
    requires cur == [] || IsWord(cur)
    requires s != [] && IsSpace(s[0])
    ensures Split(cur + s) == (if cur == [] then [] else [cur]) + Split(s[1..])
  {
    if cur == [] {
      assert cur + s == s;
    } else {
      SplitAfterWord(cur, s);
    }
  }

  lemma SplitOfWord(cur: string)
    requires cur == [] || IsWord(cur)
    ensures Split(cur) == if cur == [] then [] else [cur]
  {
    if cur != [] {
      SplitAfterWord(cur, []);
      assert cur + [] == cur;
    }
  }

  lemma SplitScanSpaceStep(s: string, cur: string, done: seq<string>)
    requires cur == [] || IsWord(cur)
    requires s != [] && IsSpace(s[0])
    requires var done' := if cur == [] then done else done + [cur];
             SplitScan(s[1..], [], done') == done' + Split([] + s[1..])
    ensures SplitScan(s, cur, done) == done + Split(cur + s)
  {
    assert [] + s[1..] == s[1..];
    SplitCloseWord(cur, s);
  }

  lemma SplitScanWordStep(s: string, cur: string, done: seq<string>)
    requires s != [] && !IsSpace(s[0])
    requires SplitScan(s[1..], cur + [s[0]], done) == done + Split(cur + [s[0]] + s[1..])
    ensures SplitScan(s, cur, done) == done + Split(cur + s)
  {
    assert cur + [s[0]] + s[1..] == cur + s;
  }

  lemma {:induction false} SplitScanFrom(s: string, cur: string, done: seq<string>)
    requires cur == [] || IsWord(cur)
    ensures SplitScan(s, cur, done) == done + Split(cur + s)
    decreases |s|
  {
    if s == [] {
      assert cur + s == cur;
      SplitOfWord(cur);
    } else if IsSpace(s[0]) {
      SplitScanFrom(s[1..], [], if cur == [] then done else done + [cur]);
      SplitScanSpaceStep(s, cur, done);
    } else {
      assert IsWord(cur + [s[0]]);
      SplitScanFrom(s[1..], cur + [s[0]], done);
      SplitScanWordStep(s, cur, done);
    }
  }

  /** `s.split()` is the left-to-right scan that cuts `s` at every whitespace
      character and keeps the non-empty pieces: each word is a whole maximal
      whitespace-free run of `s`, none is cut or glued to another, and none is
      left out. */
  lemma SplitIsScan(s: string)
    ensures Split(s) == SplitScan(s, [], [])
  {
    SplitScanFrom(s, [], []);
    assert [] + s == s;
  }

  // ---------------------------------------------------------------------------
  // A character-by-character reference for `Collapse`
  // ---------------------------------------------------------------------------

  /** Reading `s` left to right: `started` says a non-whitespace character has
      been written, `gap` that whitespace has been read since the last one. A
      non-whitespace character is written as it is, preceded by one `' '` when a
      gap is pending; whitespace before the first word and after the last one is
      dropped. */
  function Squeeze(s: string, started: bool, gap: bool): string {
    if s == [] then []
    else if IsSpace(s[0]) then Squeeze(s[1..], started, started)
    else (if gap then " " else "") + [s[0]] + Squeeze(s[1..], true, false)
  }

  lemma {:induction false} SqueezeInWord(s: string)
    ensures Squeeze(s, true, false) == s[..WordLen(s)] + Squeeze(s[WordLen(s)..], true, true)
    decreases |s|
  {
    if s == [] {
    } else if IsSpace(s[0]) {
      assert s[..0] == [] && s[0..] == s;
    } else {
      SqueezeInWord(s[1..]);
      var n := WordLen(s);
      assert s[..n] == [s[0]] + s[1..][..n - 1];
      assert s[n..] == s[1..][n - 1..];
    }
  }

  /** One word `w` of `s` followed by the rest `t`: joining the word list
      puts one space between `w` and the rest when the rest has words. */
  lemma CollapseAfterWord(s: string, w: string, t: string)
    requires s != [] && !IsSpace(s[0]) && w == s[..WordLen(s)] && t == s[WordLen(s)..]
    ensures Split(s) == [w] + Split(t)
    ensures Collapse(s) == w + (if Split(t) != [] then " " else "") + Collapse(t)
  {
    assert Split(s) == [w] + Split(t);
    if Split(t) == [] {
      assert Join([w]) == w;
    } else {
      JoinCons(w, Split(t));
    }
  }

  /** The first word of `s` is its first character and the first word of the rest. */
  lemma WordAfterFirst(s: string)
    requires s != [] && !IsSpace(s[0])
    ensures WordLen(s) == 1 + WordLen(s[1..])
    ensures s[..WordLen(s)] == [s[0]] + s[1..][..WordLen(s[1..])]
    ensures s[WordLen(s)..] == s[1..][WordLen(s[1..])..]
  {
  }

  /** Squeezing from a gap or the start across a whole word writes the word, with
      a space before it after a gap, and ends inside a gap. */
  lemma SqueezeOverWord(s: string, g: bool)
    requires s != [] && !IsSpace(s[0])
    ensures Squeeze(s, g, g) == (if g then " " else "") + s[..WordLen(s)] + Squeeze(s[WordLen(s)..], true, true)
  {
    var rest := s[1..];
    var sep: string := if g then " " else "";
    assert Squeeze(s, g, g) == sep + [s[0]] + Squeeze(rest, true, false);
    SqueezeInWord(rest);
    WordAfterFirst(s);
  }

  lemma SqueezeWordStep(s: string, g: bool)
    requires s != [] && !IsSpace(s[0])
    requires var t := s[WordLen(s)..];
             Squeeze(t, true, true) == (if Split(t) != [] then " " else "") + Collapse(t)
    ensures Squeeze(s, g, g) == (if g && Split(s) != [] then " " else "") + Collapse(s)
  {
    var w := s[..WordLen(s)];
    var t := s[WordLen(s)..];
    var sep: string := if g then " " else "";
    var sep2: string := if Split(t) != [] then " " else "";
    SqueezeOverWord(s, g);
    CollapseAfterWord(s, w, t);
    Regroup(Squeeze(s, g, g), sep, w, Squeeze(t, true, true), sep2, Collapse(t), Collapse(s));
  }

  lemma Regroup(a: string, sep: string, w: string, x: string, sep2: string, c: string, d: string)
    requires a == sep + w + x && x == sep2 + c && d == w + sep2 + c
    ensures a == sep + d
  {
  }

  lemma {:induction false} SqueezeSplit(s: string, g: bool)
    ensures Squeeze(s, g, g) == (if g && Split(s) != [] then " " else "") + Collapse(s)
    decreases |s|
  {
    if s == [] {
    } else if IsSpace(s[0]) {
      SqueezeSplit(s[1..], g);
    } else {
      SqueezeSplit(s[WordLen(s)..], true);
      SqueezeWordStep(s, g);
    }
  }

  /** `' '.join(s.split())` is the left-to-right squeeze of `s`: leading and
      trailing whitespace dropped, every inner whitespace run turned into one
      `' '`, every other character kept where it was. */
  lemma CollapseIsSqueeze(s: string)
    ensures Collapse(s) == Squeeze(s, false, false)
  {
    SqueezeSplit(s, false);
  }
}

=== FILE: utils.dfy ===
/**
 The two pure helpers of `fallacy_detector/utils.py`: `clean_article_text`, which
 bounds article text before it reaches the language model, and
 `format_analysis_result`, which renders an analysis record as a report.
 */
module Utils {
  import opened PyStr

  /** Marker appended when the text is cut in the middle of a sentence. */
  const Ellipsis: string := "..."

  // ---------------------------------------------------------------------------
  // clean_article_text
  // ---------------------------------------------------------------------------

  /** `clean_article_text(text, char_limit)`: collapse whitespace, then, if the text
      is over the limit, cut it at the last '.' of the first `charLimit` characters
      when that '.' lies strictly beyond 80% of the limit, else cut at exactly
      `charLimit` characters and append "...". The float test
      `last_period > char_limit * 0.8` is read over the integers as
      `5 * last_period > 4 * char_limit`. */
  function CleanArticleText(text: string, charLimit: int := 5000): (r: string)
    ensures text == [] ==> r == []
    ensures |Collapse(text)| <= charLimit ==> r == Collapse(text)
    ensures charLimit >= 0 ==> |r| <= charLimit + 3
    ensures |Collapse(text)| > charLimit >= 0 ==>
              IsPrefix(r, Collapse(text)) || r == Collapse(text)[..charLimit] + Ellipsis
    ensures IsPrefix(r, Collapse(text)) || r == PyHead(Collapse(text), charLimit) + Ellipsis
  {
    if text == [] then []
    else
      var cleaned := Collapse(text);
      if |cleaned| > charLimit then
        var limited := PyHead(cleaned, charLimit);
        var lastPeriod := RFind(limited, '.');
        if 5 * lastPeriod > 4 * charLimit then PyHead(limited, lastPeriod + 1)
        else limited + Ellipsis
      else cleaned
  }

  /** There is a '.' within the first `limit` characters of `c` lying strictly
      beyond 80% of `limit`. */
  ghost predicate HasLatePeriod(c: string, limit: int)
    requires 0 <= limit <= |c|
  {
    exists k :: 0 <= k < limit && 5 * k > 4 * limit && c[k] == '.'
  }

  /** Over the limit, with the last '.' of the first `limit` characters at `p`
      beyond 80% of the limit: the text ends on that full sentence. */
  lemma CleanSentenceCut(text: string, limit: int, p: int)
    requires limit >= 0 && |Collapse(text)| > limit
    requires 0 <= p < limit && Collapse(text)[p] == '.' && 5 * p > 4 * limit
    requires forall j :: p < j < limit ==> Collapse(text)[j] != '.'
    ensures CleanArticleText(text, limit) == Collapse(text)[..p + 1]
    ensures |CleanArticleText(text, limit)| <= limit
    ensures CleanArticleText(text, limit)[|CleanArticleText(text, limit)| - 1] == '.'
  {
    var c := Collapse(text);
    var limited := c[..limit];
    assert PyHead(c, limit) == limited;
    assert limited[p] == '.';
    var q := RFind(limited, '.');
    assert q == p;
    assert PyHead(limited, p + 1) == c[..p + 1];
  }

  /** Over the limit, with no '.' beyond 80% of the limit: the text is cut at
      exactly `limit` characters and marked with "...". */
  lemma CleanEllipsisCut(text: string, limit: int)
    requires limit >= 0 && |Collapse(text)| > limit
    requires forall k :: 0 <= k < limit && 5 * k > 4 * limit ==> Collapse(text)[k] != '.'
    ensures CleanArticleText(text, limit) == Collapse(text)[..limit] + Ellipsis
    ensures |CleanArticleText(text, limit)| == limit + 3
  {
    var c := Collapse(text);
    var limited := c[..limit];
    assert PyHead(c, limit) == limited;
    var q := RFind(limited, '.');
    if q >= 0 {
      assert c[q] == limited[q];
    }
    assert 5 * q <= 4 * limit;
  }

  /** Over the limit, the result is `limit + 3` long exactly when no '.' lies beyond
      80% of the limit, and never longer than `limit` otherwise. */
  lemma CleanCutIff(text: string, limit: int)
    requires limit >= 0 && |Collapse(text)| > limit
    ensures |CleanArticleText(text, limit)| == limit + 3 <==> !HasLatePeriod(Collapse(text), limit)
    ensures HasLatePeriod(Collapse(text), limit) ==> |CleanArticleText(text, limit)| <= limit
  {
    var c := Collapse(text);
    if HasLatePeriod(c, limit) {
      var k :| 0 <= k < limit && 5 * k > 4 * limit && c[k] == '.';
      var p := RFind(c[..limit], '.');
      assert c[..limit][k] == '.';
      assert p >= k;
      assert c[p] == c[..limit][p];
      CleanSentenceCut(text, limit, p);
    } else {
      CleanEllipsisCut(text, limit);
    }
  }

  lemma PrefixIsCollapsed(t: string, k: nat)
    requires IsCollapsed(t)
    requires k <= |t| && (k == 0 || !IsSpace(t[k - 1]))
    ensures IsCollapsed(t[..k])
  {
    var u := t[..k];
    assert forall i :: 0 <= i < |u| ==> u[i] == t[i];
  }

  lemma PrefixWithEllipsisIsCollapsed(t: string, k: nat)
    requires IsCollapsed(t) && k <= |t|
    ensures IsCollapsed(t[..k] + Ellipsis)
  {
    var u := t[..k] + Ellipsis;
    assert forall i :: 0 <= i < k ==> u[i] == t[i];
    assert forall i :: k <= i < |u| ==> u[i] == '.';
    forall i, j | 0 <= i < j < |u| && j == i + 1
      ensures !(IsSpace(u[i]) && IsSpace(u[j]))
    {
      if j < k {
        assert !(IsSpace(t[i]) && IsSpace(t[j]));
      }
    }
  }

  /** Every result is whitespace-normal: only single spaces, none at either end.
      This holds for a negative limit too, where `text[:limit]` drops characters
      from the end. */
  lemma CleanIsCollapsed(text: string, limit: int)
    ensures IsCollapsed(CleanArticleText(text, limit))
  {
    var c := Collapse(text);
    if text != [] && |c| > limit {
      var limited := PyHead(c, limit);
      assert limited == c[..|limited|];
      var p := RFind(limited, '.');
      if 5 * p > 4 * limit {
        if p >= 0 {
          assert PyHead(limited, p + 1) == c[..p + 1];
          assert c[p] == limited[p];
          PrefixIsCollapsed(c, p + 1);
        } else {
          assert PyHead(limited, p + 1) == [];
        }
      } else {
        PrefixWithEllipsisIsCollapsed(c, |limited|);
      }
    }
  }

  /** Cleaning cleaned text changes nothing. */
  lemma CleanIdempotent(text: string, limit: int)
    requires limit >= 0
    ensures CleanArticleText(CleanArticleText(text, limit), limit) == CleanArticleText(text, limit)
  {
    var c := Collapse(text);
    var r := CleanArticleText(text, limit);
    CleanIsCollapsed(text, limit);
    CollapseFixesCollapsed(r);
    if r != [] && |r| > limit {
      // only the "..." branch yields more than `limit` characters
      var limited := c[..limit];
      assert PyHead(c, limit) == limited;
      var p := RFind(limited, '.');
      assert 5 * p <= 4 * limit;
      assert r == limited + Ellipsis;
      assert PyHead(r, limit) == limited;
    }
  }

  // ---------------------------------------------------------------------------
  // format_analysis_result
  // ---------------------------------------------------------------------------

  /** `d.get(key, default)` on a result record. */
  function Get(m: map<string, string>, key: string, default: string): string {
    if key in m then m[key] else default
  }

  const ErrorPrefix: string := "Error: "

  /** The keys the report shows, in the order it shows them. */
  const ReportKeys: seq<string> :=
    ["title", "url", "timestamp", "detected_fallacies", "educational_explanations",
     "synthesized_result"]

  /** What stands in for a missing key; `now` is the value `datetime.now()` would
      print. */
  function ReportDefaults(now: string): seq<string> {
    ["Unknown", "Unknown", now, "No analysis available", "No explanations available",
     "No synthesis available"]
  }

  /** `'=' * 50`, `'-' * 25` and `'-' * 15`, the rules under the report's headings. */
  const Rule50: string := Repeat('=', 50)
  const Dash25: string := Repeat('-', 25)
  const Dash15: string := Repeat('-', 15)

  /** The fixed text in front of each of the six fields. */
  const Headings: seq<string> :=
    ["\nARTICLE ANALYSIS RESULTS\n" + Rule50 + "\n\nTitle: ",
     "\nURL: ",
     "\nTimestamp: ",
     "\n\nLOGICAL FALLACY ANALYSIS:\n" + Dash25 + "\n",
     "\n\nEDUCATIONAL EXPLANATIONS:\n" + Dash25 + "\n",
     "\n\nSYNTHESIS REPORT:\n" + Dash15 + "\n"]

  /** The six values a non-error report shows, in report order. */
  function ReportFields(m: map<string, string>, now: string): (f: seq<string>)
    ensures |f| == |ReportKeys|
  {
    seq(|ReportKeys|, i requires 0 <= i < |ReportKeys| => Get(m, ReportKeys[i], ReportDefaults(now)[i]))
  }

  /** Each heading followed by its field, in order. */
  function Interleave(hs: seq<string>, fs: seq<string>): string
    requires |hs| == |fs|
  {
    if hs == [] then [] else hs[0] + fs[0] + Interleave(hs[1..], fs[1..])
  }

  /** A report layout: headings `hs` filled with fields `fs`, then a final newline. */
  function Layout(hs: seq<string>, fs: seq<string>): string
    requires |hs| == |fs|
  {
    Interleave(hs, fs) + "\n"
  }

  /** Where field `i` starts in `Layout(hs, fs)`. */
  function FieldOffset(hs: seq<string>, fs: seq<string>, i: nat): nat
    requires |hs| == |fs| && i < |hs|
  {
    |Interleave(hs[..i], fs[..i])| + |hs[i]|
  }

  /** `format_analysis_result(result_data)`, with the timestamp default passed in:
      an error record becomes one `Error: ` line, anything else the fixed report
      (the f-string of the source is `Layout` filled with `ReportFields`). */
  function FormatAnalysisResult(result: map<string, string>, now: string): (r: string)
    ensures IsPrefix(ErrorPrefix, r) <==> "error" in result
  {
    if "error" in result then ErrorPrefix + result["error"]
    else
      var r := Layout(Headings, ReportFields(result, now));
      assert r[0] == Headings[0][0] == '\n';
      r
  }

  /** An error record renders as its message alone: every other key, and the
      timestamp default, are ignored. */
  lemma FormatErrorIgnoresOtherKeys(m1: map<string, string>, m2: map<string, string>,
                                    now1: string, now2: string)
    requires "error" in m1 && "error" in m2 && m1["error"] == m2["error"]
    ensures FormatAnalysisResult(m1, now1) == FormatAnalysisResult(m2, now2)
    ensures FormatAnalysisResult(m1, now1) == ErrorPrefix + m1["error"]
  {
  }

  /** A present key shows its value; a missing one shows its placeholder. */
  lemma ReportFieldsDefaults(m: map<string, string>, now: string, i: nat)
    requires i < |ReportKeys|
    ensures ReportKeys[i] in m ==> ReportFields(m, now)[i] == m[ReportKeys[i]]
    ensures ReportKeys[i] !in m ==> ReportFields(m, now)[i] == ReportDefaults(now)[i]
  {
  }

  /** Interleaving splits at any position `i` into the parts before and after it. */
  lemma {:induction false} InterleaveSplit(hs: seq<string>, fs: seq<string>, i: nat)
    requires |hs| == |fs| && i <= |hs|
    ensures Interleave(hs, fs) == Interleave(hs[..i], fs[..i]) + Interleave(hs[i..], fs[i..])
    decreases i
  {
    if i > 0 {
      assert hs[..i][1..] == hs[1..][..i - 1];
      assert fs[..i][1..] == fs[1..][..i - 1];
      assert hs[i..] == hs[1..][i - 1..];
      assert fs[i..] == fs[1..][i - 1..];
      InterleaveSplit(hs[1..], fs[1..], i - 1);
    }
  }

  /** `Interleave(hs, fs)` around position `i`: what comes before, heading `i`,
      field `i`, what comes after. */
  lemma InterleaveAround(hs: seq<string>, fs: seq<string>, i: nat)
    requires |hs| == |fs| && i < |hs|
    ensures Interleave(hs, fs)
         == Interleave(hs[..i], fs[..i]) + hs[i] + fs[i] + Interleave(hs[i + 1..], fs[i + 1..])
    ensures |Interleave(hs[..i + 1], fs[..i + 1])|
         == |Interleave(hs[..i], fs[..i])| + |hs[i]| + |fs[i]|
  {
    InterleaveSplit(hs, fs, i);
    assert hs[i..][1..] == hs[i + 1..];
    assert fs[i..][1..] == fs[i + 1..];
    InterleaveSplit(hs[..i + 1], fs[..i + 1], i);
    assert hs[..i + 1][..i] == hs[..i];
    assert fs[..i + 1][..i] == fs[..i];
    assert hs[..i + 1][i..] == [hs[i]];
    assert fs[..i + 1][i..] == [fs[i]];
  }

  lemma SlicesOfConcat(a: string, h: string, f: string, b: string)
    ensures var r := a + h + f + b;
            && r[|a|..|a| + |h|] == h
            && r[|a| + |h|..|a| + |h| + |f|] == f
  {
    var r := a + h + f + b;
    assert r[|a|..|a| + |h|] == h;
    assert r[|a| + |h|..|a| + |h| + |f|] == f;
  }

  /** In a layout, field `i` sits right after heading `i`, and heading `i + 1`
      starts right after field `i`. */
  lemma LayoutShowsField(hs: seq<string>, fs: seq<string>, i: nat)
    requires |hs| == |fs| && i < |hs|
    ensures var r := Layout(hs, fs);
            var o := FieldOffset(hs, fs, i);
            && o + |fs[i]| <= |r|
            && r[o - |hs[i]|..o] == hs[i]
            && r[o..o + |fs[i]|] == fs[i]
            && (i + 1 < |hs| ==> FieldOffset(hs, fs, i + 1) == o + |fs[i]| + |hs[i + 1]|)
  {
    InterleaveAround(hs, fs, i);
    var before := Interleave(hs[..i], fs[..i]);
    var after := Interleave(hs[i + 1..], fs[i + 1..]) + "\n";
    assert Layout(hs, fs) == before + hs[i] + fs[i] + after;
    SlicesOfConcat(before, hs[i], fs[i], after);
  }

  /** A layout ends with its last field and one newline. */
  lemma LayoutEnd(hs: seq<string>, fs: seq<string>)
    requires |hs| == |fs| && |hs| > 0
    ensures |Layout(hs, fs)| == FieldOffset(hs, fs, |hs| - 1) + |fs[|hs| - 1]| + 1
    ensures Layout(hs, fs)[|Layout(hs, fs)| - 1] == '\n'
  {
    InterleaveAround(hs, fs, |hs| - 1);
    assert hs[|hs|..] == [] && fs[|fs|..] == [];
  }

  /** Every field appears right after its own heading, the next heading follows it
      with nothing in between, so the six fields come in report order (title, url,
      timestamp, fallacies, explanations, synthesis), and the report ends with the
      last field and one newline. */
  lemma FormatShowsFieldsInOrder(m: map<string, string>, now: string, i: nat)
    requires "error" !in m && i < |ReportKeys|
    ensures var r := FormatAnalysisResult(m, now);
            var f := ReportFields(m, now);
            var o := FieldOffset(Headings, f, i);
            && o + |f[i]| <= |r|
            && r[o - |Headings[i]|..o] == Headings[i]
            && r[o..o + |f[i]|] == f[i]
            && (i + 1 < |ReportKeys| ==> FieldOffset(Headings, f, i + 1) == o + |f[i]| + |Headings[i + 1]|)
            && |r| == FieldOffset(Headings, f, |ReportKeys| - 1) + |f[|ReportKeys| - 1]| + 1
            && r[|r| - 1] == '\n'
  {
    LayoutShowsField(Headings, ReportFields(m, now), i);
    LayoutEnd(Headings, ReportFields(m, now));
  }

  /** Keys outside the report's six (and no `error`) do not change the report. */
  lemma FormatIgnoresUnreportedKeys(m: map<string, string>, now: string)
    requires "error" !in m
    ensures FormatAnalysisResult(m, now)
         == FormatAnalysisResult(map k | k in m && k in ReportKeys :: m[k], now)
  {
    var m' := map k | k in m && k in ReportKeys :: m[k];
    assert ReportFields(m, now) == ReportFields(m', now) by {
      forall i | 0 <= i < |ReportKeys|
        ensures ReportFields(m, now)[i] == ReportFields(m', now)[i]
      {
        assert ReportKeys[i] in ReportKeys;
      }
    }
  }
}

=== FILE: wrappers.dfy ===
/** Failure-carrying values used where the Python code raises or returns an error dict. */
module Wrappers {

  /** A value that may be absent, as a missing dictionary entry or a JSON `null`. */
  datatype Option<+T> = None | Some(value: T)

  /** Either a value or the message of the exception that replaced it. */
  datatype Result<+R, +E> = Success(value: R) | Failure(error: E)
}
